=== FILE: README.md ===
# Mock task client: task store, action gate and inbox query

A Dafny model of the in-memory task engine of the DTGov development
server's mock task client (`MockTaskClient`). The client keeps a static list
of task beans and offers four operations on it:

- **Lookup and update** (`getTask`, `updateTask`): find the first task with
  a given id; copy a caller bean's description and priority onto it.
- **Action gate** (`executeAction`, `doAction`): check that the action is in
  the *caller's* bean's allowed set, then set owner, status and allowed
  actions of the stored task as a function of the action alone; `complete`
  and `fail` also replace the stored task data with the caller's data.
- **Inbox query** (`getTasks`, `matchesFilter`): keep the tasks passing a
  priority / due-date filter, add them to a sorted set ordered by the chosen
  column (negated for descending, ties broken by the id compared as a
  string), and cut the page `[startIndex, min(endIndex+1, size))` out of it.
- **Seeding** (the static initialiser): 42 tasks with ids "0".."41", all
  `Ready` with only `claim` allowed.

The store is an immutable `seq<Task>`; each operation returns the new store.
Java `null` is `Option.None`, thrown exceptions are `Result.Err`.

Modules, one per concern: `Wrappers` (Option/Result), `JavaLang` (32-bit
`int` wrap-around, `%` truncating toward zero, `String.compareTo`,
`Integer.compareTo`, `String.valueOf`), `Tasks` (the task record, lookup,
update, the store invariant), `Actions` (the action gate), `Ordering` (the
comparator), `Inbox` (filter, sorted set, pagination, `getTasks`) and
`Seeding`.

The model follows the code in these places, where a reader might expect otherwise:

- The allowed-action check reads the caller's bean, so a stale bean can reopen
  a completed task (`Actions.StaleBeanReopensCompletedTask`).
- There is no not-found error. Every path that touches the stored task
  requires it to exist.
- `complete` and `fail` replace the stored data; they do not merge it.
- The new owner is always the literal `"currentuser"` or null.
- A start index past the filtered set makes `subList` throw
  `IllegalArgumentException`; a negative one makes it throw
  `IndexOutOfBoundsException`. Of the start indices at or past the size, only
  one equal to the size can give an empty page, and only when
  size <= endIndex+1 and endIndex < Integer.MAX_VALUE; an empty page also
  results whenever 0 <= startIndex <= size and endIndex = startIndex - 1.
- A seeded task may be `Ready` and still have an owner.
- `endIndex + 1` is a Java `int`. For `endIndex = Integer.MAX_VALUE` it
  wraps, and the call fails.

The proved store invariant `Tasks.WellFormed` holds after seeding and is
kept by `updateTask` and by every successful action, stale beans included.
It says ids are unique and each task's allowed actions are the ones its
status calls for.

## Model

| member | source | states |
|---|---|---|
| JavaLang.Wrap32 | src/main/java/org/overlord/dtgov/devsvr/mock/MockTaskClient.java:198-200 | a Java `int` expression's value is congruent to the exact value modulo 2^32 and equal to it when in range |
| JavaLang.Rem | src/main/java/org/overlord/dtgov/devsvr/mock/MockTaskClient.java:61 | Java `%` is smaller than the divisor in magnitude and takes the sign of the dividend |
| JavaLang.RemIsTruncatedRemainder | src/main/java/org/overlord/dtgov/devsvr/mock/MockTaskClient.java:61 | the dividend is an integer multiple of the divisor plus `Rem`, so with `Rem`'s sign and bound it is the remainder of division truncated toward zero |
| JavaLang.CompareInts | src/main/java/org/overlord/dtgov/devsvr/mock/MockTaskClient.java:174-179 | `Integer.compareTo` / `Date.compareTo` is negative, zero or positive exactly as the first value is smaller, equal or larger |
| JavaLang.DecimalString | src/main/java/org/overlord/dtgov/devsvr/mock/MockTaskClient.java:55 | `String.valueOf(i)` is a non-empty string of decimal digits with no leading zero unless it is the single digit "0" |
| JavaLang.CompareStrings | src/main/java/org/overlord/dtgov/devsvr/mock/MockTaskClient.java:184 | `String.compareTo` is zero on equal strings and negative when the first string has the smaller first character or is a proper prefix of the second |
| JavaLang.CompareStringsZero | src/main/java/org/overlord/dtgov/devsvr/mock/MockTaskClient.java:184 | `String.compareTo` is zero exactly on equal strings |
| JavaLang.CompareStringsAntisymmetric | src/main/java/org/overlord/dtgov/devsvr/mock/MockTaskClient.java:184 | swapping the arguments of `String.compareTo` negates the result |
| JavaLang.CompareStringsTransitive | src/main/java/org/overlord/dtgov/devsvr/mock/MockTaskClient.java:184 | `String.compareTo` < 0 is transitive |
| JavaLang.CompareStringsIsLexicographic | src/main/java/org/overlord/dtgov/devsvr/mock/MockTaskClient.java:184 | `String.compareTo` is negative iff the first string is a proper prefix of the second or has the smaller character at the first difference |
| JavaLang.ParseDecimalString | src/main/java/org/overlord/dtgov/devsvr/mock/MockTaskClient.java:55 | reading back the decimal string of `String.valueOf(i)` yields `i` |
| JavaLang.DecimalStringInjective | src/main/java/org/overlord/dtgov/devsvr/mock/MockTaskClient.java:55 | distinct loop indices give distinct ids |
| Tasks.FirstIndex | src/main/java/org/overlord/dtgov/devsvr/mock/MockTaskClient.java:232-239 | the index found holds the id and no earlier task does; none is found iff no task has the id |
| Tasks.GetTask | src/main/java/org/overlord/dtgov/devsvr/mock/MockTaskClient.java:232-239 | `getTask` returns a task iff some stored task has the id, and then the first such task |
| Tasks.GetTaskFindsStored | src/main/java/org/overlord/dtgov/devsvr/mock/MockTaskClient.java:232-239 | with unique ids, looking up a stored task's id returns that task |
| Tasks.UpdateTask | src/main/java/org/overlord/dtgov/devsvr/mock/MockTaskClient.java:245-251 | `updateTask` sets description and priority of the first task with the bean's id, leaves every other field and every other task unchanged, and is a no-op for an unknown id |
| Tasks.UpdateTaskPreservesWellFormed | src/main/java/org/overlord/dtgov/devsvr/mock/MockTaskClient.java:245-251 | `updateTask` keeps ids unique and allowed actions in step with status |
| Actions.ExecuteAction | src/main/java/org/overlord/dtgov/devsvr/mock/MockTaskClient.java:257-294 | not allowed by the caller's bean iff the call fails as not allowed; an allowed unknown action fails as not supported; an allowed, dispatched action always succeeds; on success only the target task changes, only in owner, status, allowed actions and (for complete/fail) data, which becomes the caller's data; the new status is the lifecycle target of the action (claim/stop: Reserved, start: InProgress, release: Ready, complete: Completed, fail: Failed), whatever the current status; the new allowed set is the status's set and the owner is "currentuser" exactly while Reserved or InProgress |
| Actions.Transition | src/main/java/org/overlord/dtgov/devsvr/mock/MockTaskClient.java:262-280 | exactly the six named actions are dispatched; each sets the allowed set of its target status and owner "currentuser" exactly for Reserved and InProgress, null otherwise |
| Actions.DoAction | src/main/java/org/overlord/dtgov/devsvr/mock/MockTaskClient.java:287-294 | `doAction` sets owner, status and allowed actions from the effect and leaves every other field of the task unchanged |
| Actions.LifecycleMatchesAllowed | src/main/java/org/overlord/dtgov/devsvr/mock/MockTaskClient.java:262-277 | the actions allowed in each status are exactly the lifecycle's steps out of it, and the dispatch lands in the lifecycle's target status |
| Actions.FreshBeanFollowsLifecycle | src/main/java/org/overlord/dtgov/devsvr/mock/MockTaskClient.java:257-294 | with the stored task as the bean, an action succeeds iff the lifecycle has that step, lands in its target status, and otherwise fails as not allowed |
| Actions.TerminalTaskRejectsFreshBean | src/main/java/org/overlord/dtgov/devsvr/mock/MockTaskClient.java:259-277 | a Completed or Failed task presented with its own bean rejects every action |
| Actions.StaleBeanReopensCompletedTask | src/main/java/org/overlord/dtgov/devsvr/mock/MockTaskClient.java:258-264 | a stale bean listing `claim` moves a Completed task back to Reserved |
| Actions.CompleteReplacesData | src/main/java/org/overlord/dtgov/devsvr/mock/MockTaskClient.java:272-274 | after `complete`, a stored data entry missing from the caller's data is gone |
| Actions.OutcomeDependsOnlyOnAction | src/main/java/org/overlord/dtgov/devsvr/mock/MockTaskClient.java:262-280 | two successful calls with the same action give the same status, owner and allowed actions, whatever the stores and beans |
| Actions.ExecuteActionPreservesWellFormed | src/main/java/org/overlord/dtgov/devsvr/mock/MockTaskClient.java:262-294 | every successful action keeps the store invariant |
| Ordering.CompareBy | src/main/java/org/overlord/dtgov/devsvr/mock/MockTaskClient.java:156-179 | priorities and due dates compare numerically; a missing owner compares as "", never above another owner and equal to another missing one |
| Ordering.CompareByAntisymmetric | src/main/java/org/overlord/dtgov/devsvr/mock/MockTaskClient.java:156-179 | swapping the tasks negates the column comparison |
| Ordering.CompareByTransitive | src/main/java/org/overlord/dtgov/devsvr/mock/MockTaskClient.java:156-179 | the column comparison's "less" is transitive |
| Ordering.CompareByZero | src/main/java/org/overlord/dtgov/devsvr/mock/MockTaskClient.java:156-179 | tasks tied on the column compare alike with every third task |
| Ordering.Compare | src/main/java/org/overlord/dtgov/devsvr/mock/MockTaskClient.java:155-187 | on a column tie the comparator is the comparison of the ids as strings |
| Ordering.CompareFollowsColumn | src/main/java/org/overlord/dtgov/devsvr/mock/MockTaskClient.java:179-182 | off a column tie the comparator is non-zero, negative exactly when the column compares below when ascending and above when descending |
| Ordering.CompareZero | src/main/java/org/overlord/dtgov/devsvr/mock/MockTaskClient.java:179-185 | the comparator is zero exactly on tasks with equal column value and equal id |
| Ordering.CompareAntisymmetric | src/main/java/org/overlord/dtgov/devsvr/mock/MockTaskClient.java:155-187 | swapping the tasks negates the comparator |
| Ordering.CompareTransitive | src/main/java/org/overlord/dtgov/devsvr/mock/MockTaskClient.java:155-187 | the comparator's "less" is transitive in both directions for every column |
| Ordering.CompareZeroSubstitutes | src/main/java/org/overlord/dtgov/devsvr/mock/MockTaskClient.java:155-187 | tasks comparing zero are interchangeable in every comparison |
| Ordering.TieBreakByAscendingId | src/main/java/org/overlord/dtgov/devsvr/mock/MockTaskClient.java:183-185 | tasks tied on the column are ordered by ascending id, in both directions |
| Ordering.DescendingReversesAscending | src/main/java/org/overlord/dtgov/devsvr/mock/MockTaskClient.java:179-182 | off a tie, the descending order is the ascending order reversed |
| Ordering.StatusNamesSortAlphabetically | src/main/java/org/overlord/dtgov/devsvr/mock/MockTaskClient.java:171-173 | statuses sort Completed, Failed, InProgress, Ready, Reserved |
| Ordering.IdsCompareAsText | src/main/java/org/overlord/dtgov/devsvr/mock/MockTaskClient.java:184 | id "10" sorts before id "2" |
| Ordering.StrictlySortedUnique | src/main/java/org/overlord/dtgov/devsvr/mock/MockTaskClient.java:152-195 | two strictly sorted arrangements of the same tasks are equal, so the order does not depend on store order |
| Inbox.Matches | src/main/java/org/overlord/dtgov/devsvr/mock/MockTaskClient.java:209-226 | a task without a due date passes exactly when the priority filter is off or its priority matches; a passing task has the filter's priority when one is given |
| Inbox.MatchesMeaning | src/main/java/org/overlord/dtgov/devsvr/mock/MockTaskClient.java:209-226 | a non-negative filter priority demands equality and a negative one nothing; date bounds are inclusive and never exclude a task without a due date |
| Inbox.FilterTasks | src/main/java/org/overlord/dtgov/devsvr/mock/MockTaskClient.java:189-193 | exactly the stored tasks passing the filter are kept |
| Inbox.FilterTasksUniqueIds | src/main/java/org/overlord/dtgov/devsvr/mock/MockTaskClient.java:189-193 | filtering keeps ids unique |
| Inbox.Insert | src/main/java/org/overlord/dtgov/devsvr/mock/MockTaskClient.java:191 | adding to the sorted set keeps every present task and adds only the new one, and adds it when nothing compares equal to it |
| Inbox.InsertKeepsSorted | src/main/java/org/overlord/dtgov/devsvr/mock/MockTaskClient.java:152-191 | adding keeps the set strictly sorted |
| Inbox.InsertOfPresentIsNoOp | src/main/java/org/overlord/dtgov/devsvr/mock/MockTaskClient.java:183-191 | adding a task that compares equal to a present one leaves the set unchanged |
| Inbox.Build | src/main/java/org/overlord/dtgov/devsvr/mock/MockTaskClient.java:189-193 | filling the sorted set in store order keeps only tasks that were added |
| Inbox.SortedMatches | src/main/java/org/overlord/dtgov/devsvr/mock/MockTaskClient.java:189-195 | the list taken from the sorted set is strictly sorted, holds only stored tasks passing the filter, and with unique ids is a permutation of the filtered tasks |
| Inbox.BuildSorted | src/main/java/org/overlord/dtgov/devsvr/mock/MockTaskClient.java:189-195 | the list built from the sorted set is strictly sorted by the comparator |
| Inbox.BuildKeepsEveryTask | src/main/java/org/overlord/dtgov/devsvr/mock/MockTaskClient.java:189-195 | with unique ids the list is a permutation of the filtered tasks |
| Inbox.DuplicateIdIsDropped | src/main/java/org/overlord/dtgov/devsvr/mock/MockTaskClient.java:183-191 | a second task with the same id and column value is silently dropped |
| Inbox.Page | src/main/java/org/overlord/dtgov/devsvr/mock/MockTaskClient.java:197-201 | the page exists iff 0 <= startIndex <= total, startIndex <= endIndex+1 and endIndex < Integer.MAX_VALUE; a negative start is `IndexOutOfBoundsException`, any other failure `IllegalArgumentException`; then it is the slice [startIndex, min(endIndex+1,total)), itemsPerPage = endIndex-startIndex+1, startIndex is echoed and totalResults = total |
| Inbox.GetTasks | src/main/java/org/overlord/dtgov/devsvr/mock/MockTaskClient.java:150-203 | the page is strictly sorted and holds only stored tasks passing the filter; with unique ids it succeeds exactly on the valid ranges and totalResults is the filtered count |
| Inbox.GetTasksPagesSortedFilter | src/main/java/org/overlord/dtgov/devsvr/mock/MockTaskClient.java:150-203 | with unique ids the result is the page of the unique sorted arrangement of the filtered tasks |
| Inbox.StartPastEndFails | src/main/java/org/overlord/dtgov/devsvr/mock/MockTaskClient.java:200 | a start index beyond the filtered count throws `IllegalArgumentException` |
| Inbox.StartAtEndIsEmptyPage | src/main/java/org/overlord/dtgov/devsvr/mock/MockTaskClient.java:200-201 | a start index equal to the filtered count gives an empty page with the full count, when the count <= endIndex+1 and endIndex < Integer.MAX_VALUE |
| Inbox.EmptyRangeIsEmptyPage | src/main/java/org/overlord/dtgov/devsvr/mock/MockTaskClient.java:200-201 | for 0 <= startIndex <= size, endIndex = startIndex - 1 gives an empty page with the full count and itemsPerPage 0 |
| Inbox.MaxEndIndexFails | src/main/java/org/overlord/dtgov/devsvr/mock/MockTaskClient.java:200 | endIndex = Integer.MAX_VALUE always throws (`IllegalArgumentException` for a non-negative start), because endIndex+1 wraps |
| Seeding.SeedTask | src/main/java/org/overlord/dtgov/devsvr/mock/MockTaskClient.java:54-69 | the i-th task has id String.valueOf(i), name "Task i", status Ready, type "mock-task", allowed {claim}, priority in [0,2], owner "ewittman" iff the roll is divisible by 4, the sample description iff the roll is positive and odd, the draw's due date and the supplied form and data |
| Seeding.Seed | src/main/java/org/overlord/dtgov/devsvr/mock/MockTaskClient.java:53-71 | seeding yields 42 tasks, the i-th built from the i-th draws, with unique ids and allowed actions matching status |
| Seeding.SeededIdsResolve | src/main/java/org/overlord/dtgov/devsvr/mock/MockTaskClient.java:55 | looking up String.valueOf(i) in the seeded store finds the i-th task |
| Seeding.ReadyTaskMayHaveOwner | src/main/java/org/overlord/dtgov/devsvr/mock/MockTaskClient.java:57-59 | a seeded task can be Ready with owner "ewittman" |
| Seeding.NegativeOddRollHasNoDescription | src/main/java/org/overlord/dtgov/devsvr/mock/MockTaskClient.java:61-63 | a negative odd roll gives no description, because Java's remainder keeps the sign |

## Left out

- DTGovDevServer.java is not part of this model. It is web server, servlet and repository-upload wiring, with no task logic.
- MockDtgovClient.java is not part of this model. Its three methods are empty stubs.
- `createTaskForm`, `createTaskData` and the sample description text are inputs (`Seeding.Fixtures`). They are fixed literals with no behaviour.
- `setLocale` is a no-op.
- `SecureRandom` draws and the `Calendar` due dates are inputs (`Seeding.Draw`). Due dates are plain millisecond integers.
- Seeding.Seed: does not state that the i-th due date lies i days after the current time, because the calendar is an input.
- The static list is shared without synchronisation. The model has one sequential store and does not model concurrency.
- Aliasing is not modelled: the caller's bean is a value, never the stored object itself.
- Null-pointer paths are preconditions, not behaviour. A missing stored task on an allowed, supported action is excluded by `ExecuteAction`'s requires. A task without a due date under the due-date sort is excluded by `QueryDefined`. An unrecognised sort column cannot be written, since `SortColumn` is closed.
- Task names, ids and task data are never null in the model. The source stores the caller's task data as it is, which may be null, but no modelled operation reads the data.
- `TaskActionEnum` and the bean classes are not part of this model. Actions the dispatch does not name are `Action.Other`. A bean's allowed actions are a set.
- `String.compareTo` compares UTF-16 code units. `CompareStrings` compares Unicode scalar values, so the two orders differ for characters outside the Basic Multilingual Plane.
- `totalResults` is a natural number, not a 32-bit `int`. A store with more than 2^31-1 tasks is not considered.

=== FILE: actions.dfy ===
/** The action gate of the mock task client (`executeAction` and
    `doAction`): the allowed-action check against the caller's bean, then a
    dispatch on the action that rewrites owner, status and allowed actions of
    the stored task. */
module Actions {
  import opened Wrappers
  import opened Tasks

  /** The only owner the gate ever assigns. */
  const CurrentUser: string := "currentuser"

  /** What `doAction` writes: the new owner, status and allowed actions. */
  datatype Effect = Effect(owner: Option<string>, status: Status, allowed: set<Action>)

  datatype ActionError = ActionNotAllowed | ActionNotSupported(action: Action)

  /** A successful action: the new store and the updated stored task. */
  datatype Executed = Executed(store: seq<Task>, task: Task)

  /** The dispatch of `executeAction`; `None` is the "not supported" branch. */
  function Transition(a: Action): (r: Option<Effect>)
    ensures r.Some? <==> !a.Other?
    ensures r.Some? ==> r.value.allowed == AllowedFor(r.value.status)
    ensures r.Some? ==> (r.value.owner == Some(CurrentUser) <==> r.value.status == Reserved || r.value.status == InProgress)
    ensures r.Some? ==> (r.value.owner.None? <==> r.value.status != Reserved && r.value.status != InProgress)
  {
    match a
    case Claim => Some(Effect(Some(CurrentUser), Reserved, {Release, Start, Fail, Complete}))
    case Release => Some(Effect(None, Ready, {Claim}))
    case Start => Some(Effect(Some(CurrentUser), InProgress, {Stop, Release, Complete, Fail}))
    case Stop => Some(Effect(Some(CurrentUser), Reserved, {Release, Start, Fail, Complete}))
    case Complete => Some(Effect(None, Completed, {}))
    case Fail => Some(Effect(None, Failed, {}))
    case Other(_) => None
  }

  /** `doAction`: set owner and status, then replace the allowed actions. */
  function DoAction(t: Task, e: Effect): (r: Task)
    ensures SameIdentity(t, r)
    ensures r.description == t.description && r.priority == t.priority && r.data == t.data
    ensures r.owner == e.owner && r.status == e.status && r.allowedActions == e.allowed
  {
    t.(owner := e.owner, status := e.status, allowedActions := e.allowed)
  }

  /** The paths of `executeAction` that dereference the stored task. */
  predicate Dereferences(bean: Task, a: Action) {
    a in bean.allowedActions && Transition(a).Some?
  }

  /** `executeAction(bean, action)`. The check reads the CALLER's bean, not the
      stored task; the stored task must exist on every path that touches it;
      `complete` and `fail` replace the stored data with the bean's data. */
  function ExecuteAction(store: seq<Task>, bean: Task, a: Action): (r: Result<Executed, ActionError>)
    requires Dereferences(bean, a) ==> FirstIndex(store, bean.id).Some?
    ensures r == Err(ActionNotAllowed) <==> a !in bean.allowedActions
    ensures r == Err(ActionNotSupported(a)) <==> a in bean.allowedActions && a.Other?
    ensures r.Ok? <==> a in bean.allowedActions && !a.Other?
    ensures r.Ok? ==>
      var i := FirstIndex(store, bean.id).value;
      var t := r.value.task;
      && r.value.store == store[i := t]
      && SameIdentity(store[i], t)
      && t.description == store[i].description
      && t.priority == store[i].priority
      && t.data == (if a == Complete || a == Fail then bean.data else store[i].data)
    ensures r.Ok? ==>
      var t := r.value.task;
      && t.allowedActions == AllowedFor(t.status)
      && (t.owner == Some(CurrentUser) <==> t.status == Reserved || t.status == InProgress)
      && (t.owner.None? <==> t.status == Ready || t.status == Completed || t.status == Failed)
    ensures r.Ok? ==> forall s :: Lifecycle(s, a).Some? ==> r.value.task.status == Lifecycle(s, a).value
  {
    if a !in bean.allowedActions then Err(ActionNotAllowed)
    else match Transition(a)
      case None => Err(ActionNotSupported(a))
      case Some(e) =>
        var i := FirstIndex(store, bean.id).value;
        var done := DoAction(store[i], e);
        var t := if a == Complete || a == Fail then done.(data := bean.data) else done;
        Ok(Executed(store[i := t], t))
  }

  /** The task lifecycle the allowed-action sets describe: which action may
      follow which status, and the status it leads to. */
  function Lifecycle(s: Status, a: Action): Option<Status> {
    match (s, a)
    case (Ready, Claim) => Some(Reserved)
    case (Reserved, Release) => Some(Ready)
    case (InProgress, Release) => Some(Ready)
    case (Reserved, Start) => Some(InProgress)
    case (InProgress, Stop) => Some(Reserved)
    case (Reserved, Complete) => Some(Completed)
    case (InProgress, Complete) => Some(Completed)
    case (Reserved, Fail) => Some(Failed)
    case (InProgress, Fail) => Some(Failed)
    case _ => None
  }

  /** With a caller bean that is the stored task itself, the gate follows the
      lifecycle exactly: it accepts precisely the lifecycle's steps, lands in
      the status the lifecycle names, and rejects everything else as not
      allowed. */
  lemma FreshBeanFollowsLifecycle(store: seq<Task>, i: nat, a: Action)
    requires WellFormed(store) && i < |store|
    ensures Dereferences(store[i], a) ==> FirstIndex(store, store[i].id).Some?
    ensures ExecuteAction(store, store[i], a).Ok? <==> Lifecycle(store[i].status, a).Some?
    ensures ExecuteAction(store, store[i], a).Ok? ==>
      ExecuteAction(store, store[i], a).value.task.status == Lifecycle(store[i].status, a).value
    ensures ExecuteAction(store, store[i], a).Err? ==> ExecuteAction(store, store[i], a) == Err(ActionNotAllowed)
  {
    GetTaskFindsStored(store, i);
    var t := store[i];
    LifecycleMatchesAllowed(t.status, a);
    var r := ExecuteAction(store, t, a);
  }

  /** The lifecycle's steps out of a status are exactly the actions allowed
      in it, and each step lands where the gate's dispatch puts it. */
  lemma LifecycleMatchesAllowed(s: Status, a: Action)
    ensures a in AllowedFor(s) <==> Lifecycle(s, a).Some?
    ensures Lifecycle(s, a).Some? ==> Transition(a).Some? && Transition(a).value.status == Lifecycle(s, a).value
  {
  }

  /** A completed or failed task, presented with its own current bean, admits
      no action at all. */
  lemma TerminalTaskRejectsFreshBean(store: seq<Task>, i: nat, a: Action)
    requires WellFormed(store) && i < |store|
    requires store[i].status == Completed || store[i].status == Failed
    ensures ExecuteAction(store, store[i], a) == Err(ActionNotAllowed)
  {
  }

  /** A stale bean that still lists `claim` reopens a completed task: the gate
      never looks at the stored task's allowed actions. */
  lemma StaleBeanReopensCompletedTask(t: Task)
    requires t.status == Completed && t.allowedActions == {}
    ensures
      var r := ExecuteAction([t], t.(allowedActions := {Claim}), Claim);
      && r.Ok?
      && r.value.task.status == Reserved
      && r.value.task.owner == Some(CurrentUser)
  {
  }

  /** `complete` overwrites the stored data with the bean's data: a stored
      entry the bean lacks is gone afterwards. */
  lemma CompleteReplacesData(t: Task, key: string, value: string)
    requires t.allowedActions == AllowedFor(Reserved) && t.data == map[key := value]
    ensures
      var r := ExecuteAction([t], t.(data := map[]), Complete);
      && r.Ok?
      && key !in r.value.task.data
  {
  }

  /** The outcome of a successful action depends on the action alone: neither
      the store, nor the stored task's status, nor the bean matter. */
  lemma OutcomeDependsOnlyOnAction(s1: seq<Task>, b1: Task, s2: seq<Task>, b2: Task, a: Action)
    requires Dereferences(b1, a) ==> FirstIndex(s1, b1.id).Some?
    requires Dereferences(b2, a) ==> FirstIndex(s2, b2.id).Some?
    requires ExecuteAction(s1, b1, a).Ok? && ExecuteAction(s2, b2, a).Ok?
    ensures
      var t1, t2 := ExecuteAction(s1, b1, a).value.task, ExecuteAction(s2, b2, a).value.task;
      t1.status == t2.status && t1.owner == t2.owner && t1.allowedActions == t2.allowedActions
  {
  }

  /** Any action, even through a stale bean, keeps the store well formed:
      allowed actions never drift from the status. */
  lemma ExecuteActionPreservesWellFormed(store: seq<Task>, bean: Task, a: Action)
    requires WellFormed(store)
    requires Dereferences(bean, a) ==> FirstIndex(store, bean.id).Some?
    ensures ExecuteAction(store, bean, a).Ok? ==> WellFormed(ExecuteAction(store, bean, a).value.store)
  {
  }
}

=== FILE: inbox.dfy ===
/** The inbox query of the mock task client (`getTasks` and
    `matchesFilter`): keep the tasks that pass the filter, add them to a
    sorted set ordered by the comparator, and cut the requested page out of
    the set's iteration order. */
module Inbox {
  import opened Wrappers
  import opened JavaLang
  import opened Tasks
  import opened Ordering

  /** The inbox filter bean: a negative priority means "any priority". */
  datatype InboxFilter = InboxFilter(priority: int, dueFrom: Option<int>, dueTo: Option<int>)

  /** The page handed back to the caller. */
  datatype ResultSet = ResultSet(tasks: seq<Task>, startIndex: int32, itemsPerPage: int32, totalResults: nat)

  /** `subList` rejected the requested range: `IndexOutOfBoundsException`
      for a negative start or an end past the size, `IllegalArgumentException`
      for a start past the end. */
  datatype QueryError = IndexOutOfBounds | IllegalArgument

  /** `matchesFilter`. */
  predicate Matches(f: InboxFilter, t: Task)
    ensures t.dueDate.None? ==> (Matches(f, t) <==> f.priority < 0 || t.priority == f.priority)
    ensures Matches(f, t) && f.priority >= 0 ==> t.priority == f.priority
  {
    && (f.priority >= 0 ==> t.priority == f.priority)
    && (f.dueFrom.Some? && t.dueDate.Some? ==> CompareInts(t.dueDate.value, f.dueFrom.value) >= 0)
    && (f.dueTo.Some? && t.dueDate.Some? ==> CompareInts(t.dueDate.value, f.dueTo.value) <= 0)
  }

  /** The filter in plain arithmetic: exact priority when one is given,
      inclusive date bounds, and no date constraint on a task without a due date. */
  lemma MatchesMeaning(f: InboxFilter, t: Task)
    ensures Matches(f, t) <==>
      && (f.priority < 0 || t.priority == f.priority)
      && (t.dueDate.None? || (
           && (f.dueFrom.None? || f.dueFrom.value <= t.dueDate.value)
           && (f.dueTo.None? || t.dueDate.value <= f.dueTo.value)))
  {
  }

  /** The tasks that pass the filter, in store order. */
  function FilterTasks(f: InboxFilter, store: seq<Task>): (r: seq<Task>)
    ensures |r| <= |store|
    ensures forall x :: x in r ==> x in store && Matches(f, x)
    ensures forall i :: 0 <= i < |store| && Matches(f, store[i]) ==> store[i] in r
  {
    if |store| == 0 then []
    else (if Matches(f, store[0]) then [store[0]] else []) + FilterTasks(f, store[1..])
  }

  lemma {:induction false} FilterTasksUniqueIds(f: InboxFilter, store: seq<Task>)
    ensures UniqueIds(store) ==> UniqueIds(FilterTasks(f, store))
  {
    if |store| > 0 && UniqueIds(store) {
      var rest := FilterTasks(f, store[1..]);
      FilterTasksUniqueIds(f, store[1..]);
      assert UniqueIds(store[1..]);
      forall x | x in rest
        ensures x.id != store[0].id
      {
        var k :| 0 <= k < |store[1..]| && store[1..][k] == x;
        assert store[k + 1] == x;
      }
    }
  }

  /** `TreeSet.add`: put `t` in its place, unless an element comparing equal
      to it is already present, in which case the set is left as it was. */
  function Insert(o: Order, t: Task, s: seq<Task>): (r: seq<Task>)
    requires Sortable(o.column, t) && AllSortable(o.column, s)
    ensures AllSortable(o.column, r)
    ensures forall x :: x in r ==> x == t || x in s
    ensures forall x :: x in s ==> x in r
    ensures (forall x :: x in s ==> Compare(o, t, x) != 0) ==> multiset(r) == multiset(s) + multiset{t}
    decreases |s|
  {
    if |s| == 0 then [t]
    else
      var c := Compare(o, t, s[0]);
      if c < 0 then [t] + s
      else if c == 0 then s
      else
        assert s == [s[0]] + s[1..];
        [s[0]] + Insert(o, t, s[1..])
  }

  /** The tail of a strictly sorted sequence is strictly sorted and lies
      above its head. */
  lemma SortedTail(o: Order, s: seq<Task>)
    requires StrictlySorted(o, s) && |s| > 0
    ensures StrictlySorted(o, s[1..])
    ensures forall x :: x in s[1..] ==> Compare(o, s[0], x) < 0
  {
    forall x | x in s[1..]
      ensures Compare(o, s[0], x) < 0
    {
      var k :| 0 <= k < |s[1..]| && s[1..][k] == x;
      assert s[k + 1] == x;
    }
  }

  /** A head below every element of a strictly sorted sequence extends it. */
  lemma SortedCons(o: Order, h: Task, rest: seq<Task>)
    requires Sortable(o.column, h) && StrictlySorted(o, rest)
    requires forall x :: x in rest ==> Compare(o, h, x) < 0
    ensures StrictlySorted(o, [h] + rest)
  {
    var r := [h] + rest;
    forall i, j | 0 <= i < j < |r|
      ensures Compare(o, r[i], r[j]) < 0
    {
      assert r[j] == rest[j - 1];
      if i > 0 {
        assert r[i] == rest[i - 1];
      }
    }
  }

  lemma {:induction false} InsertKeepsSorted(o: Order, t: Task, s: seq<Task>)
    requires Sortable(o.column, t) && StrictlySorted(o, s)
    ensures StrictlySorted(o, Insert(o, t, s))
    decreases |s|
  {
    if |s| > 0 {
      var c := Compare(o, t, s[0]);
      SortedTail(o, s);
      if c < 0 {
        forall x | x in s
          ensures Compare(o, t, x) < 0
        {
          if x != s[0] {
            assert x in s[1..] by { assert s == [s[0]] + s[1..]; }
            CompareTransitive(o, t, s[0], x);
          }
        }
        SortedCons(o, t, s);
      } else if c > 0 {
        var rest := Insert(o, t, s[1..]);
        InsertKeepsSorted(o, t, s[1..]);
        CompareAntisymmetric(o, t, s[0]);
        SortedCons(o, s[0], rest);
      }
    }
  }

  /** Adding an element that compares equal to one already in the set
      changes nothing: the element added first stays. */
  lemma {:induction false} InsertOfPresentIsNoOp(o: Order, t: Task, s: seq<Task>, j: nat)
    requires Sortable(o.column, t) && StrictlySorted(o, s)
    requires j < |s| && Compare(o, t, s[j]) == 0
    ensures Insert(o, t, s) == s
    decreases |s|
  {
    if j > 0 {
      CompareZeroSubstitutes(o, t, s[j], s[0]);
      CompareAntisymmetric(o, s[0], s[j]);
      assert Compare(o, s[0], s[j]) < 0;
      assert Compare(o, t, s[0]) > 0;
      SortedTail(o, s);
      assert s[1..][j - 1] == s[j];
      InsertOfPresentIsNoOp(o, t, s[1..], j - 1);
      assert s == [s[0]] + s[1..];
    }
  }

  /** The sorted set after adding `ts` one by one, in order. */
  function Build(o: Order, ts: seq<Task>): (r: seq<Task>)
    requires AllSortable(o.column, ts)
    ensures AllSortable(o.column, r)
    ensures forall x :: x in r ==> x in ts
    decreases |ts|
  {
    if |ts| == 0 then []
    else Insert(o, ts[|ts| - 1], Build(o, ts[..|ts| - 1]))
  }

  lemma {:induction false} BuildSorted(o: Order, ts: seq<Task>)
    requires AllSortable(o.column, ts)
    ensures StrictlySorted(o, Build(o, ts))
    decreases |ts|
  {
    if |ts| > 0 {
      BuildSorted(o, ts[..|ts| - 1]);
      InsertKeepsSorted(o, ts[|ts| - 1], Build(o, ts[..|ts| - 1]));
    }
  }

  /** With unique ids nothing compares equal, so the sorted set holds every
      task added, exactly once. */
  lemma {:induction false} BuildKeepsEveryTask(o: Order, ts: seq<Task>)
    requires AllSortable(o.column, ts)
    ensures UniqueIds(ts) ==> multiset(Build(o, ts)) == multiset(ts)
    decreases |ts|
  {
    if |ts| > 0 && UniqueIds(ts) {
      var init, t := ts[..|ts| - 1], ts[|ts| - 1];
      assert UniqueIds(init);
      BuildKeepsEveryTask(o, init);
      var prev := Build(o, init);
      forall x | x in prev
        ensures Compare(o, t, x) != 0
      {
        var k :| 0 <= k < |init| && init[k] == x;
        assert ts[k] == x;
        CompareZero(o, t, x);
      }
      assert ts == init + [t];
    }
  }

  /** Two tasks with the same id that tie on the column: the sorted set keeps
      only the first one, so a repeated id can lose a task. */
  lemma DuplicateIdIsDropped(o: Order, t: Task, u: Task)
    requires Sortable(o.column, t) && Sortable(o.column, u)
    requires t.id == u.id && CompareBy(o.column, u, t) == 0
    ensures Build(o, [t, u]) == [t]
  {
    assert [t, u][..1] == [t];
    assert [t][..0] == [];
    assert Build(o, [t]) == [t];
    CompareZero(o, u, t);
  }

  /** `list.subList(startIndex, Math.min(endIndex + 1, size))` with the
      result bean's fields. `endIndex + 1` and `endIndex - startIndex + 1`
      are Java `int` expressions and wrap around. */
  function Page(sorted: seq<Task>, startIndex: int32, endIndex: int32): (r: Result<ResultSet, QueryError>)
    ensures r.Ok? <==> 0 <= startIndex <= |sorted| && startIndex <= endIndex + 1 && endIndex < MaxInt32
    ensures r == Err(IndexOutOfBounds) <==> startIndex < 0
    ensures r == Err(IllegalArgument) <==> 0 <= startIndex && r.Err?
    ensures r.Ok? ==>
      && r.value.startIndex == startIndex
      && r.value.itemsPerPage == endIndex - startIndex + 1
      && r.value.totalResults == |sorted|
      && r.value.tasks == sorted[startIndex..if endIndex + 1 < |sorted| then endIndex + 1 else |sorted|]
      && |r.value.tasks| <= r.value.itemsPerPage
  {
    var upTo := Wrap32(endIndex + 1);
    var to := if upTo < |sorted| then upTo else |sorted|;
    if startIndex < 0 || to > |sorted| then Err(IndexOutOfBounds)
    else if startIndex > to then Err(IllegalArgument)
    else Ok(ResultSet(sorted[startIndex..to], startIndex, Wrap32(Wrap32(endIndex - startIndex) + 1), |sorted|))
  }

  /** Filtered tasks that the chosen column can compare. */
  ghost predicate QueryDefined(store: seq<Task>, f: InboxFilter, o: Order) {
    forall i :: 0 <= i < |store| && Matches(f, store[i]) ==> Sortable(o.column, store[i])
  }

  lemma FilteredTasksSortable(store: seq<Task>, f: InboxFilter, o: Order)
    requires QueryDefined(store, f, o)
    ensures AllSortable(o.column, FilterTasks(f, store))
  {
  }

  /** The sorted set's contents in iteration order. */
  function SortedMatches(store: seq<Task>, f: InboxFilter, o: Order): (r: seq<Task>)
    requires QueryDefined(store, f, o)
    ensures StrictlySorted(o, r)
    ensures forall x :: x in r ==> x in store && Matches(f, x)
    ensures UniqueIds(store) ==> multiset(r) == multiset(FilterTasks(f, store))
    ensures UniqueIds(store) ==> |r| == |FilterTasks(f, store)|
  {
    var matching := FilterTasks(f, store);
    FilteredTasksSortable(store, f, o);
    BuildSorted(o, matching);
    FilterTasksUniqueIds(f, store);
    BuildKeepsEveryTask(o, matching);
    var sorted := Build(o, matching);
    assert UniqueIds(store) ==> |sorted| == |multiset(sorted)| == |matching|;
    sorted
  }

  /** `getTasks(filters, startIndex, endIndex, sortColumn, ascending)`. */
  function GetTasks(store: seq<Task>, f: InboxFilter, startIndex: int32, endIndex: int32, o: Order): (r: Result<ResultSet, QueryError>)
    requires QueryDefined(store, f, o)
    ensures r.Ok? ==> StrictlySorted(o, r.value.tasks)
    ensures r.Ok? ==> forall x :: x in r.value.tasks ==> x in store && Matches(f, x)
    ensures r.Ok? ==>
      && r.value.startIndex == startIndex
      && r.value.itemsPerPage == endIndex - startIndex + 1
      && |r.value.tasks| <= r.value.itemsPerPage
    ensures UniqueIds(store) ==>
      (r.Ok? <==> 0 <= startIndex <= |FilterTasks(f, store)| && startIndex <= endIndex + 1 && endIndex < MaxInt32)
    ensures UniqueIds(store) && r.Ok? ==> r.value.totalResults == |FilterTasks(f, store)|
  {
    Page(SortedMatches(store, f, o), startIndex, endIndex)
  }

  /** With unique ids, the query is the page cut out of THE sorted
      arrangement of the filtered tasks, whatever the store order. */
  lemma GetTasksPagesSortedFilter(store: seq<Task>, f: InboxFilter, startIndex: int32, endIndex: int32, o: Order, view: seq<Task>)
    requires QueryDefined(store, f, o) && UniqueIds(store)
    requires StrictlySorted(o, view) && multiset(view) == multiset(FilterTasks(f, store))
    ensures GetTasks(store, f, startIndex, endIndex, o) == Page(view, startIndex, endIndex)
  {
    StrictlySortedUnique(o, SortedMatches(store, f, o), view);
  }

  /** A start index past the filtered set is an error, not an empty page:
      `subList` finds its start past its end. */
  lemma StartPastEndFails(store: seq<Task>, f: InboxFilter, startIndex: int32, endIndex: int32, o: Order)
    requires QueryDefined(store, f, o) && UniqueIds(store)
    requires startIndex > |FilterTasks(f, store)|
    ensures GetTasks(store, f, startIndex, endIndex, o) == Err(IllegalArgument)
  {
  }

  /** A start index equal to the filtered set's size gives an empty page
      that still reports the full count. */
  lemma StartAtEndIsEmptyPage(store: seq<Task>, f: InboxFilter, endIndex: int32, o: Order)
    requires QueryDefined(store, f, o) && UniqueIds(store)
    requires |FilterTasks(f, store)| <= endIndex + 1 && endIndex < MaxInt32
    ensures
      var r := GetTasks(store, f, |FilterTasks(f, store)|, endIndex, o);
      r.Ok? && r.value.tasks == [] && r.value.totalResults == |FilterTasks(f, store)|
  {
    var n := |FilterTasks(f, store)|;
    var sorted := SortedMatches(store, f, o);
    assert |sorted| == n;
    var r := Page(sorted, n, endIndex);
    assert r.Ok? && |r.value.tasks| == 0;
  }

  /** A page that ends just before it starts is empty, provided the start
      lies within the sorted set. */
  lemma EmptyRangeIsEmptyPage(sorted: seq<Task>, startIndex: int32)
    requires 0 <= startIndex <= |sorted|
    ensures
      var r := Page(sorted, startIndex, startIndex - 1);
      r.Ok? && r.value.tasks == [] && r.value.itemsPerPage == 0 && r.value.totalResults == |sorted|
  {
  }

  /** Asking for everything with `endIndex = Integer.MAX_VALUE` fails: the
      page end `endIndex + 1` wraps to `Integer.MIN_VALUE`, below any
      non-negative start. */
  lemma MaxEndIndexFails(sorted: seq<Task>, startIndex: int32)
    ensures Page(sorted, startIndex, MaxInt32) == (if startIndex < 0 then Err(IndexOutOfBounds) else Err(IllegalArgument))
  {
  }
}

=== FILE: javalang.dfy ===
/** The few pieces of `java.lang` semantics the task client relies on:
    32-bit `int` arithmetic, `%` truncating toward zero, `String.compareTo`,
    `Integer.compareTo` / `Date.compareTo` and `String.valueOf(int)`. */
module JavaLang {

  const MinInt32: int := -0x8000_0000
  const MaxInt32: int := 0x7fff_ffff
  const TwoTo32: int := 0x1_0000_0000

  type int32 = x: int | MinInt32 <= x <= MaxInt32

  /** Two's-complement wrap-around of a Java `int` expression. */
  function Wrap32(x: int): (r: int32)
    ensures (x - r) % TwoTo32 == 0
    ensures MinInt32 <= x <= MaxInt32 ==> r == x
  {
    (x - MinInt32) % TwoTo32 + MinInt32
  }

  /** Java's `a % b` for a positive divisor: the remainder takes the sign of
      the dividend (Dafny's `%` is Euclidean and never negative). */
  function Rem(a: int, b: int): (r: int)
    requires b > 0
    ensures -b < r < b
    ensures a >= 0 ==> r >= 0
    ensures a <= 0 ==> r <= 0
  {
    if a >= 0 then a % b else -((-a) % b)
  }

  /** `Rem` is the remainder of division truncated toward zero: with the
      sign and bound of its contract this fixes its value. */
  lemma RemIsTruncatedRemainder(a: int, b: int) returns (q: int)
    requires b > 0
    ensures a == q * b + Rem(a, b)
  {
    if a >= 0 {
      q := a / b;
    } else {
      q := -((-a) / b);
      assert -a == ((-a) / b) * b + (-a) % b;
    }
  }

  /** `Integer.compareTo` and `Date.compareTo` (on epoch milliseconds). */
  function CompareInts(a: int, b: int): (r: int)
    ensures -1 <= r <= 1
    ensures r < 0 <==> a < b
    ensures r == 0 <==> a == b
  {
    if a < b then -1 else if a == b then 0 else 1
  }

  /** `String.compareTo`: the difference of the first differing characters,
      or the difference of the lengths when one string is a prefix of the other. */
  function CompareStrings(a: string, b: string): (r: int)
    ensures a == b ==> r == 0
    ensures |a| > 0 && |b| > 0 && a[0] < b[0] ==> r < 0
    ensures |a| < |b| && a == b[..|a|] ==> r < 0
    decreases |a|
  {
    if |a| == 0 || |b| == 0 then |a| - |b|
    else if a[0] != b[0] then a[0] as int - b[0] as int
    else CompareStrings(a[1..], b[1..])
  }

  /** Lexicographic order stated directly: `a` is a proper prefix of `b`, or
      the two agree up to some position where `a` has the smaller character. */
  ghost predicate LexLess(a: string, b: string) {
    || (|a| < |b| && a == b[..|a|])
    || exists k :: 0 <= k < |a| && k < |b| && a[..k] == b[..k] && a[k] < b[k]
  }

  lemma {:induction false} CompareStringsZero(a: string, b: string)
    ensures CompareStrings(a, b) == 0 <==> a == b
    decreases |a|
  {
    if |a| == 0 || |b| == 0 {
    } else if a[0] != b[0] {
    } else {
      CompareStringsZero(a[1..], b[1..]);
      assert a == [a[0]] + a[1..];
      assert b == [b[0]] + b[1..];
    }
  }

  lemma {:induction false} CompareStringsAntisymmetric(a: string, b: string)
    ensures CompareStrings(b, a) == -CompareStrings(a, b)
    decreases |a|
  {
    if |a| == 0 || |b| == 0 {
    } else if a[0] != b[0] {
    } else {
      CompareStringsAntisymmetric(a[1..], b[1..]);
    }
  }

  lemma {:induction false} CompareStringsTransitive(a: string, b: string, c: string)
    requires CompareStrings(a, b) < 0 && CompareStrings(b, c) < 0
    ensures CompareStrings(a, c) < 0
    decreases |a|
  {
    if |a| == 0 || |b| == 0 || |c| == 0 {
    } else if a[0] == b[0] && b[0] == c[0] {
      CompareStringsTransitive(a[1..], b[1..], c[1..]);
    }
  }

  /** `String.compareTo` is negative exactly when the first string precedes
      the second lexicographically (so "10" precedes "2"). */
  lemma {:induction false} CompareStringsIsLexicographic(a: string, b: string)
    ensures CompareStrings(a, b) < 0 <==> LexLess(a, b)
    decreases |a|
  {
    if |a| == 0 || |b| == 0 {
      if |a| == 0 && |b| > 0 {
        assert a == b[..|a|];
      }
    } else if a[0] != b[0] {
      if a[0] < b[0] {
        assert a[..0] == b[..0];
      }
    } else {
      var a', b' := a[1..], b[1..];
      CompareStringsIsLexicographic(a', b');
      LexLessTail(a, b);
    }
  }

  lemma LexLessTail(a: string, b: string)
    requires |a| > 0 && |b| > 0 && a[0] == b[0]
    ensures LexLess(a, b) <==> LexLess(a[1..], b[1..])
  {
    var a', b' := a[1..], b[1..];
    if |a'| < |b'| && a' == b'[..|a'|] {
      assert a == [a[0]] + a' && b[..|a|] == [b[0]] + b'[..|a'|];
    }
    if |a| < |b| && a == b[..|a|] {
      assert a' == b'[..|a'|];
    }
    if k :| 0 <= k < |a| && k < |b| && a[..k] == b[..k] && a[k] < b[k] {
      assert k > 0;
      assert a'[..k-1] == a[1..k] == b[1..k] == b'[..k-1];
      assert a'[k-1] < b'[k-1];
    }
    if k :| 0 <= k < |a'| && k < |b'| && a'[..k] == b'[..k] && a'[k] < b'[k] {
      assert a[..k+1] == [a[0]] + a'[..k];
      assert b[..k+1] == [b[0]] + b'[..k];
      assert a[k+1] < b[k+1];
    }
  }

  function Digit(d: nat): (c: char)
    requires d < 10
    ensures '0' <= c <= '9'
  {
    (d + '0' as int) as char
  }

  /** `String.valueOf(n)` for a non-negative `n`: decimal digits, no leading zero. */
  function DecimalString(n: nat): (r: string)
    ensures |r| >= 1
    ensures forall i :: 0 <= i < |r| ==> '0' <= r[i] <= '9'
    ensures |r| > 1 ==> r[0] != '0'
  {
    if n < 10 then [Digit(n)] else DecimalString(n / 10) + [Digit(n % 10)]
  }

  /** Reads a string of decimal digits back as a number. */
  function ParseDecimal(s: string): nat
    requires forall i :: 0 <= i < |s| ==> '0' <= s[i] <= '9'
  {
    if |s| == 0 then 0
    else ParseDecimal(s[..|s| - 1]) * 10 + (s[|s| - 1] as int - '0' as int)
  }

  lemma {:induction false} ParseDecimalString(n: nat)
    ensures ParseDecimal(DecimalString(n)) == n
  {
    var s := DecimalString(n);
    if n >= 10 {
      ParseDecimalString(n / 10);
      assert s[..|s| - 1] == DecimalString(n / 10);
    }
  }

  /** Distinct numbers have distinct decimal strings. */
  lemma DecimalStringInjective(n: nat, m: nat)
    ensures DecimalString(n) == DecimalString(m) <==> n == m
  {
    ParseDecimalString(n);
    ParseDecimalString(m);
  }
}

=== FILE: ordering.dfy ===
/** The comparator of `getTasks`: compare the selected column, negate for a
    descending sort, and break a tie by comparing the ids as strings. */
module Ordering {
  import opened Wrappers
  import opened JavaLang
  import opened Tasks

  /** The sortable inbox columns. */
  datatype SortColumn = ByName | ByPriority | ByOwner | ByStatus | ByDueOn

  datatype Order = Order(column: SortColumn, ascending: bool)

  /** A missing owner sorts as the empty string. */
  function OwnerKey(t: Task): string {
    match t.owner
    case None => ""
    case Some(o) => o
  }

  /** Only the due-date column can hit a null value (a task without a due date). */
  predicate Sortable(col: SortColumn, t: Task) {
    col == ByDueOn ==> t.dueDate.Some?
  }

  ghost predicate AllSortable(col: SortColumn, s: seq<Task>) {
    forall i :: 0 <= i < |s| ==> Sortable(col, s[i])
  }

  /** `sortValue1.compareTo(sortValue2)` for the selected column. */
  function CompareBy(col: SortColumn, t1: Task, t2: Task): (r: int)
    requires Sortable(col, t1) && Sortable(col, t2)
    ensures col == ByPriority ==> (r < 0 <==> t1.priority < t2.priority) && (r == 0 <==> t1.priority == t2.priority)
    ensures col == ByDueOn ==> (r < 0 <==> t1.dueDate.value < t2.dueDate.value) && (r == 0 <==> t1.dueDate == t2.dueDate)
    ensures col == ByOwner && t1.owner.None? ==> r <= 0
    ensures col == ByOwner && t1.owner.None? && t2.owner.None? ==> r == 0
  {
    match col
    case ByName => CompareStrings(t1.name, t2.name)
    case ByPriority => CompareInts(t1.priority, t2.priority)
    case ByOwner => CompareStrings(OwnerKey(t1), OwnerKey(t2))
    case ByStatus => CompareStrings(t1.status.Name(), t2.status.Name())
    case ByDueOn => CompareInts(t1.dueDate.value, t2.dueDate.value)
  }

  /** The whole comparator handed to the sorted set. */
  function Compare(o: Order, t1: Task, t2: Task): (r: int)
    requires Sortable(o.column, t1) && Sortable(o.column, t2)
    ensures CompareBy(o.column, t1, t2) == 0 ==> r == CompareStrings(t1.id, t2.id)
  {
    var k := CompareBy(o.column, t1, t2);
    var r := if o.ascending then k else k * -1;
    if r == 0 then CompareStrings(t1.id, t2.id) else r
  }

  /** Off a column tie the column decides: with its own sign when ascending,
      with the opposite sign when descending. */
  lemma CompareFollowsColumn(o: Order, t1: Task, t2: Task)
    requires Sortable(o.column, t1) && Sortable(o.column, t2)
    requires CompareBy(o.column, t1, t2) != 0
    ensures Compare(o, t1, t2) < 0 <==> (if o.ascending then CompareBy(o.column, t1, t2) < 0 else CompareBy(o.column, t1, t2) > 0)
    ensures Compare(o, t1, t2) != 0
  {
  }

  /** Every pair in order, strictly: the iteration order of the sorted set. */
  ghost predicate StrictlySorted(o: Order, s: seq<Task>) {
    && AllSortable(o.column, s)
    && forall i, j :: 0 <= i < j < |s| ==> Compare(o, s[i], s[j]) < 0
  }

  lemma CompareByAntisymmetric(col: SortColumn, a: Task, b: Task)
    requires Sortable(col, a) && Sortable(col, b)
    ensures CompareBy(col, b, a) == -CompareBy(col, a, b)
  {
    match col
    case ByName => CompareStringsAntisymmetric(a.name, b.name);
    case ByOwner => CompareStringsAntisymmetric(OwnerKey(a), OwnerKey(b));
    case ByStatus => CompareStringsAntisymmetric(a.status.Name(), b.status.Name());
    case _ =>
  }

  lemma CompareByTransitive(col: SortColumn, a: Task, b: Task, c: Task)
    requires Sortable(col, a) && Sortable(col, b) && Sortable(col, c)
    requires CompareBy(col, a, b) < 0 && CompareBy(col, b, c) < 0
    ensures CompareBy(col, a, c) < 0
  {
    match col
    case ByName => CompareStringsTransitive(a.name, b.name, c.name);
    case ByOwner => CompareStringsTransitive(OwnerKey(a), OwnerKey(b), OwnerKey(c));
    case ByStatus => CompareStringsTransitive(a.status.Name(), b.status.Name(), c.status.Name());
    case _ =>
  }

  /** Equal column values are interchangeable in any comparison. */
  lemma CompareByZero(col: SortColumn, a: Task, b: Task, c: Task)
    requires Sortable(col, a) && Sortable(col, b) && Sortable(col, c)
    requires CompareBy(col, a, b) == 0
    ensures CompareBy(col, a, c) == CompareBy(col, b, c)
  {
    match col
    case ByName => CompareStringsZero(a.name, b.name);
    case ByOwner => CompareStringsZero(OwnerKey(a), OwnerKey(b));
    case ByStatus => CompareStringsZero(a.status.Name(), b.status.Name());
    case _ =>
  }

  /** The comparator is zero exactly on tasks with equal column value and equal id. */
  lemma CompareZero(o: Order, a: Task, b: Task)
    requires Sortable(o.column, a) && Sortable(o.column, b)
    ensures Compare(o, a, b) == 0 <==> CompareBy(o.column, a, b) == 0 && a.id == b.id
  {
    CompareStringsZero(a.id, b.id);
  }

  lemma CompareAntisymmetric(o: Order, a: Task, b: Task)
    requires Sortable(o.column, a) && Sortable(o.column, b)
    ensures Compare(o, b, a) == -Compare(o, a, b)
  {
    CompareByAntisymmetric(o.column, a, b);
    CompareStringsAntisymmetric(a.id, b.id);
  }

  lemma CompareTransitive(o: Order, a: Task, b: Task, c: Task)
    requires Sortable(o.column, a) && Sortable(o.column, b) && Sortable(o.column, c)
    requires Compare(o, a, b) < 0 && Compare(o, b, c) < 0
    ensures Compare(o, a, c) < 0
  {
    var col := o.column;
    var kab, kbc := CompareBy(col, a, b), CompareBy(col, b, c);
    if kab == 0 {
      CompareByZero(col, a, b, c);
      if kbc == 0 {
        CompareByZero(col, a, b, c);
        CompareStringsTransitive(a.id, b.id, c.id);
      }
    } else if kbc == 0 {
      CompareByAntisymmetric(col, b, c);
      CompareByZero(col, c, b, a);
      CompareByAntisymmetric(col, a, c);
      CompareByAntisymmetric(col, a, b);
    } else if o.ascending {
      CompareByTransitive(col, a, b, c);
    } else {
      CompareByAntisymmetric(col, a, b);
      CompareByAntisymmetric(col, b, c);
      CompareByAntisymmetric(col, a, c);
      CompareByTransitive(col, c, b, a);
    }
  }

  /** A comparison that is zero can be replaced by either side. */
  lemma CompareZeroSubstitutes(o: Order, a: Task, b: Task, c: Task)
    requires Sortable(o.column, a) && Sortable(o.column, b) && Sortable(o.column, c)
    requires Compare(o, a, b) == 0
    ensures Compare(o, a, c) == Compare(o, b, c)
  {
    CompareZero(o, a, b);
    CompareByZero(o.column, a, b, c);
  }

  /** Tasks equal on the column are ordered by ascending id in BOTH directions. */
  lemma TieBreakByAscendingId(o: Order, a: Task, b: Task)
    requires Sortable(o.column, a) && Sortable(o.column, b)
    requires CompareBy(o.column, a, b) == 0
    ensures Compare(o, a, b) < 0 <==> LexLess(a.id, b.id)
  {
    CompareStringsIsLexicographic(a.id, b.id);
  }

  /** Off a tie, a descending sort puts every pair in the reverse order. */
  lemma DescendingReversesAscending(col: SortColumn, a: Task, b: Task)
    requires Sortable(col, a) && Sortable(col, b)
    requires CompareBy(col, a, b) != 0
    ensures Compare(Order(col, true), a, b) < 0 <==> Compare(Order(col, false), b, a) < 0
  {
    CompareByAntisymmetric(col, a, b);
  }

  /** Statuses sort by their names: Completed, Failed, InProgress, Ready, Reserved. */
  lemma StatusNamesSortAlphabetically()
    ensures CompareStrings(Completed.Name(), Failed.Name()) < 0
    ensures CompareStrings(Failed.Name(), InProgress.Name()) < 0
    ensures CompareStrings(InProgress.Name(), Ready.Name()) < 0
    ensures CompareStrings(Ready.Name(), Reserved.Name()) < 0
  {
  }

  /** Ids compare as text, not as numbers. */
  lemma IdsCompareAsText()
    ensures CompareStrings("10", "2") < 0
  {
  }

  /** A strictly sorted arrangement of a collection is unique: sorting does
      not depend on the order the tasks arrived in. */
  lemma {:induction false} StrictlySortedUnique(o: Order, a: seq<Task>, b: seq<Task>)
    requires StrictlySorted(o, a) && StrictlySorted(o, b)
    requires multiset(a) == multiset(b)
    ensures a == b
    decreases |a|
  {
    if |a| == 0 {
      assert |multiset(b)| == 0;
    } else {
      assert a[0] in multiset(b);
      assert |b| > 0;
      if a[0] != b[0] {
        assert b[0] in multiset(a);
        var k :| 0 <= k < |a| && a[k] == b[0];
        var m :| 0 <= m < |b| && b[m] == a[0];
        assert Compare(o, a[0], b[0]) < 0;
        assert Compare(o, b[0], a[0]) < 0;
        CompareAntisymmetric(o, a[0], b[0]);
        assert false;
      }
      assert a == [a[0]] + a[1..];
      assert b == [b[0]] + b[1..];
      assert multiset(a) == multiset{a[0]} + multiset(a[1..]);
      assert multiset(b) == multiset{b[0]} + multiset(b[1..]);
      assert multiset(a[1..]) == multiset(a) - multiset{a[0]};
      assert multiset(b[1..]) == multiset(b) - multiset{b[0]};
      StrictlySortedUnique(o, a[1..], b[1..]);
    }
  }
}

=== FILE: seeding.dfy ===
/** The static initialiser of the mock task client: 42 sample tasks, each
    Ready with only `claim` allowed. The random draws and the calendar time
    are inputs, so every possible seeding is covered. */
module Seeding {
  import opened Wrappers
  import opened JavaLang
  import opened Tasks

  const TaskCount: nat := 42
  const SampleOwner: string := "ewittman"
  const SampleKind: string := "mock-task"

  /** One task's draws: `nextInt(111)` for the owner, `nextInt(3)` for the
      priority, `nextInt()` for the description, and the due date the
      calendar yields (in milliseconds). */
  datatype Draw = Draw(ownerRoll: int, priorityRoll: int, descriptionRoll: int32, dueDate: int)

  predicate ValidDraw(d: Draw) {
    0 <= d.ownerRoll < 111 && 0 <= d.priorityRoll < 3
  }

  /** What the helper methods supply: the task form, the task data and the
      sample description text. */
  datatype Fixtures = Fixtures(form: string, data: map<string, string>, description: string)

  /** The i-th seeded task. */
  function SeedTask(i: nat, d: Draw, fx: Fixtures): (t: Task)
    requires ValidDraw(d)
    ensures t.id == DecimalString(i) && t.name == "Task " + t.id
    ensures t.status == Ready && t.allowedActions == {Claim}
    ensures 0 <= t.priority <= 2
    ensures t.owner.Some? <==> d.ownerRoll % 4 == 0
    ensures t.owner.Some? ==> t.owner.value == SampleOwner
    ensures t.description.Some? <==> d.descriptionRoll > 0 && d.descriptionRoll % 2 == 1
    ensures t.description.Some? ==> t.description.value == fx.description
    ensures t.kind == SampleKind
    ensures t.dueDate == Some(d.dueDate) && t.data == fx.data && t.form == fx.form
  {
    Task(
      id := DecimalString(i),
      name := "Task " + DecimalString(i),
      description := if Rem(d.descriptionRoll, 2) > 0 then Some(fx.description) else None,
      owner := if Rem(d.ownerRoll, 4) == 0 then Some(SampleOwner) else None,
      priority := d.priorityRoll,
      status := Ready,
      kind := SampleKind,
      dueDate := Some(d.dueDate),
      allowedActions := {Claim},
      form := fx.form,
      data := fx.data)
  }

  /** The seeding loop. */
  method Seed(draws: seq<Draw>, fx: Fixtures) returns (store: seq<Task>)
    requires |draws| == TaskCount
    requires forall i :: 0 <= i < |draws| ==> ValidDraw(draws[i])
    ensures |store| == TaskCount
    ensures forall i :: 0 <= i < |store| ==> store[i] == SeedTask(i, draws[i], fx)
    ensures WellFormed(store)
  {
    store := [];
    var i := 0;
    while i < TaskCount
      invariant 0 <= i <= TaskCount
      invariant |store| == i
      invariant forall k :: 0 <= k < i ==> store[k] == SeedTask(k, draws[k], fx)
      invariant WellFormed(store)
    {
      var t := SeedTask(i, draws[i], fx);
      forall k | 0 <= k < i
        ensures store[k].id != t.id
      {
        DecimalStringInjective(k, i);
      }
      store := store + [t];
      i := i + 1;
    }
  }

  /** Every seeded id is found by lookup, at its own position. */
  lemma SeededIdsResolve(store: seq<Task>, draws: seq<Draw>, fx: Fixtures, i: nat)
    requires |draws| == TaskCount && |store| == TaskCount
    requires forall k :: 0 <= k < |draws| ==> ValidDraw(draws[k])
    requires forall k :: 0 <= k < |store| ==> store[k] == SeedTask(k, draws[k], fx)
    requires i < TaskCount
    ensures GetTask(store, DecimalString(i)) == Some(store[i])
  {
    forall k | 0 <= k < i
      ensures store[k].id != DecimalString(i)
    {
      DecimalStringInjective(k, i);
    }
  }

  /** A seeded task can be Ready and still have an owner: "owner only while
      held" is not an invariant of this client. */
  lemma ReadyTaskMayHaveOwner(i: nat, d: Draw, fx: Fixtures)
    requires ValidDraw(d) && d.ownerRoll == 0
    ensures SeedTask(i, d, fx).status == Ready && SeedTask(i, d, fx).owner == Some(SampleOwner)
  {
  }

  /** Only a positive odd `nextInt()` yields a description; Java's `%` keeps
      the sign, so a negative odd draw gives -1 and no description. */
  lemma NegativeOddRollHasNoDescription(i: nat, d: Draw, fx: Fixtures)
    requires ValidDraw(d) && d.descriptionRoll == -1
    ensures SeedTask(i, d, fx).description.None?
  {
  }
}

=== FILE: tasks.dfy ===
/** The task records held by the mock task client and the two store
    operations that do not go through the action gate: lookup by id and the
    bounded update of description and priority. The store is the client's
    static list of task beans, modelled as an immutable sequence. */
module Tasks {
  import opened Wrappers

  /** The mock task statuses. The bean stores the constant's name. */
  datatype Status = Ready | Reserved | InProgress | Completed | Failed {
    function Name(): string {
      match this
      case Ready => "Ready"
      case Reserved => "Reserved"
      case InProgress => "InProgress"
      case Completed => "Completed"
      case Failed => "Failed"
    }
  }

  /** The task action tags. `Other` stands for any tag the client does not
      dispatch on. */
  datatype Action = Claim | Release | Start | Stop | Complete | Fail | Other(tag: string)

  /** A task bean: `kind` is the bean's type, `form` its opaque task form and
      `data` its task data. Java nulls are `None`. */
  datatype Task = Task(
    id: string,
    name: string,
    description: Option<string>,
    owner: Option<string>,
    priority: int,
    status: Status,
    kind: string,
    dueDate: Option<int>,
    allowedActions: set<Action>,
    form: string,
    data: map<string, string>)

  /** The allowed-action set that belongs with each status, as the action
      gate assigns it together with the status. */
  function AllowedFor(s: Status): set<Action> {
    match s
    case Ready => {Claim}
    case Reserved => {Release, Start, Fail, Complete}
    case InProgress => {Stop, Release, Complete, Fail}
    case Completed => {}
    case Failed => {}
  }

  ghost predicate UniqueIds(store: seq<Task>) {
    forall i, j :: 0 <= i < j < |store| ==> store[i].id != store[j].id
  }

  /** Store invariant: ids are unique and every task's allowed actions are
      the ones its status calls for. */
  ghost predicate WellFormed(store: seq<Task>) {
    && UniqueIds(store)
    && forall i :: 0 <= i < |store| ==> store[i].allowedActions == AllowedFor(store[i].status)
  }

  /** Position of the first task with the given id, scanning in list order. */
  function FirstIndex(store: seq<Task>, id: string): (r: Option<nat>)
    ensures r.Some? ==> r.value < |store| && store[r.value].id == id
    ensures r.Some? ==> forall j :: 0 <= j < r.value ==> store[j].id != id
    ensures r.None? <==> forall j :: 0 <= j < |store| ==> store[j].id != id
  {
    if |store| == 0 then None
    else if store[0].id == id then Some(0)
    else match FirstIndex(store[1..], id)
      case None => None
      case Some(k) => Some(k + 1)
  }

  /** `getTask`: the first task whose id equals `id`, or null. */
  function GetTask(store: seq<Task>, id: string): (r: Option<Task>)
    ensures r.Some? <==> exists i :: 0 <= i < |store| && store[i].id == id
    ensures r.Some? ==> r.value.id == id
    ensures r.Some? ==>
      exists i :: 0 <= i < |store| && store[i] == r.value && forall j :: 0 <= j < i ==> store[j].id != id
  {
    match FirstIndex(store, id)
    case None => None
    case Some(i) => Some(store[i])
  }

  /** With unique ids, looking up a stored task's id finds that very task. */
  lemma GetTaskFindsStored(store: seq<Task>, i: nat)
    requires UniqueIds(store) && i < |store|
    ensures GetTask(store, store[i].id) == Some(store[i])
  {
  }

  /** The fields neither `updateTask` nor the action gate ever touch. */
  predicate SameIdentity(a: Task, b: Task) {
    && a.id == b.id
    && a.name == b.name
    && a.kind == b.kind
    && a.dueDate == b.dueDate
    && a.form == b.form
  }

  /** Everything `updateTask` must leave alone. */
  predicate SameExceptDetails(a: Task, b: Task) {
    && SameIdentity(a, b)
    && a.owner == b.owner
    && a.status == b.status
    && a.allowedActions == b.allowedActions
    && a.data == b.data
  }

  /** `updateTask`: copy the bean's description and priority onto the first
      stored task with the bean's id; an unknown id changes nothing. */
  function UpdateTask(store: seq<Task>, bean: Task): (r: seq<Task>)
    ensures |r| == |store|
    ensures forall i :: 0 <= i < |r| ==> SameExceptDetails(store[i], r[i])
    ensures (forall i :: 0 <= i < |store| ==> store[i].id != bean.id) ==> r == store
    ensures forall i :: 0 <= i < |r| && store[i].id == bean.id && (forall j :: 0 <= j < i ==> store[j].id != bean.id) ==>
      r[i].description == bean.description && r[i].priority == bean.priority
    ensures forall i :: 0 <= i < |r| && r[i] != store[i] ==>
      store[i].id == bean.id && forall j :: 0 <= j < i ==> store[j].id != bean.id
  {
    match FirstIndex(store, bean.id)
    case None => store
    case Some(i) => store[i := store[i].(description := bean.description, priority := bean.priority)]
  }

  lemma UpdateTaskPreservesWellFormed(store: seq<Task>, bean: Task)
    requires WellFormed(store)
    ensures WellFormed(UpdateTask(store, bean))
  {
  }
}

=== FILE: wrappers.dfy ===
/** Failure-compatible wrappers used across the model: `Option` for Java
    references that may be null, `Result` for calls that may throw. */
module Wrappers {

  datatype Option<+T> = None | Some(value: T)

  datatype Result<+T, +E> = Ok(value: T) | Err(error: E)
}
